=== FILE: README.md ===
# Alien invasion: the simulation kernel

A Dafny model of the deterministic part of a small pygame arcade game
(`zestaw_9`): a ship at the bottom of the screen fires bullets upwards at a
grid of aliens that slides sideways, bounces off the screen edges and drops a
little on every bounce. The model covers

- **fleet construction** (`_create_fleet`, `_create_alien`, `Alien.__init__`):
  the column and row counts computed with integer division, the 2x-spaced
  grid, and that a fresh fleet lies inside the screen, away from both side
  edges and above the bottom band;
- **fleet motion** (`Alien.check_edges`, `Alien.update`, `_check_fleet_edges`,
  `_change_fleet_direction`): the fleet reverses at most once per tick, only
  when some alien is at an edge, and then every alien drops by the same
  amount;
- **the ship** (`Ship.__init__`, `Ship.update`, `center_ship`): two guarded
  moves, each guard evaluated independently against the rect as it was before the tick;
- **the session** (`_fire_bullet`, the off-screen filter of `_update_bullets`,
  `_check_bullet_alien_collisions`, `_update_aliens`, `_ship_hit`,
  `_check_aliens_bottom`, `_start_game`, `_check_play_button`, the key
  handlers, `_check_events` and one pass of `run_game`), as pure transitions
  on an immutable `Game` record, with an invariant kept by every frame.

Files: `geometry.dfy` (integer rects, sequence filter), `settings.dfy`
(configuration and speeds), `ship.dfy`, `alien.dfy`, `fleet.dfy`,
`bullets.dfy`, `invasion.dfy` (game state, events, tick).

Positions and speeds are integers. Values that live in files outside this
model (`settings.py`, `game_stats.py`, `bullet.py`, `button.py`) are
parameters: `Config` carries the screen and image sizes, `fleet_drop_speed`,
`bullets_allowed`, the starting ship count and the base speeds and direction;
`Env` carries the collaborators — pygame's overlap test, a bullet's own
motion, where a new bullet appears, and the speed-up applied after a fleet is
wiped out.

Three behaviours of the code that are easy to miss, all kept in the model:

- Only the play button resets the dynamic settings before a new game. The
  `g` key calls `_start_game` directly, so speeds and fleet direction carry
  over from the previous game (`Invasion.KeyStartKeepsSpeeds`).
- The ship count is not floored at zero. When, in one tick, an alien touches
  the ship while the last ship is lost and some alien is at the bottom,
  `_ship_hit` runs twice and the count reaches -1 (`Invasion.DoubleHitExample`);
  a second hit in one tick only ever follows the end of the game
  (`Invasion.UpdateAliens`).
- The fire key is not guarded by the active flag: bullets can be added while
  no game is running. They never move: every way into a running game goes
  through `_start_game`, which discards them.

## Model

| member | source | states |
|---|---|---|
| ShipMotion.Centered | zestaw_9/ship.py:13-16 | the ship rect has the image's size and its midbottom equals the screen's midbottom |
| ShipMotion.NewShip | zestaw_9/ship.py:13-19 | a new ship is centred at the bottom with both movement flags off |
| ShipMotion.CenterShip | zestaw_9/ship.py:36-39 | recentring puts the midbottom on the screen's, lands exactly where the initial placement does, and leaves the flags alone |
| ShipMotion.CenterShipIdempotent | zestaw_9/ship.py:36-39 | centring twice equals centring once |
| ShipMotion.Update | zestaw_9/ship.py:22-30 | flags, y and size never change; no flag means no motion; each flag alone moves one step unless its edge guard is off; both flags inside cancel; with both set and one guard off only the other step happens |
| ShipMotion.NotAClamp | zestaw_9/ship.py:25-30 | from strictly inside the screen, one tick leaves the right edge less than one ship step past the screen's right edge |
| ShipMotion.OvershootExample | zestaw_9/ship.py:25-26 | the right guard is not a clamp: a concrete ship strictly inside ends the tick past the right edge |
| AlienMotion.NewAlien | zestaw_9/alien.py:13-17 | a new alien has the image's size and sits one alien width from the left and one alien height from the top |
| AlienMotion.AtEdge | zestaw_9/alien.py:20-24 | an alien is at an edge unless it lies strictly inside the screen's horizontal span, left above 0 and right below the screen's right edge |
| AlienMotion.Step | zestaw_9/alien.py:26-29 | an alien moves right by the alien speed for direction +1 and left for -1; y and size never change |
| AlienMotion.StepReversed | zestaw_9/alien.py:26-29 | a step in the reversed direction undoes a step |
| Fleet.Columns | zestaw_9/alien_invasion.py:169-171 | the column count is the largest n with 2*aw*n <= W - 2*aw |
| Fleet.Rows | zestaw_9/alien_invasion.py:173-176 | the row count is the largest n with 2*ah*n <= H - 3*ah - ship height |
| Fleet.GridAlien | zestaw_9/alien_invasion.py:182-189 | the alien for column c, row r has the image's size and its top-left at (aw + 2*aw*c, ah + 2*ah*r) |
| Fleet.FleetRow | zestaw_9/alien_invasion.py:179-180 | one row of the grid has one alien per column, and entry c is the alien of column c in that row |
| Fleet.FleetRows | zestaw_9/alien_invasion.py:178-180 | the first k rows hold k times the column count aliens, each inside the grid's bounding box |
| Fleet.CreateFleet | zestaw_9/alien_invasion.py:166-180 | the fleet has rows*columns aliens (none when either count is not positive); each alien is at least aw from the left, its right edge at most W - 2*aw, at least ah from the top, its bottom at most H - 3*ah - ship height; so no fresh alien is at a side edge or at the bottom |
| Fleet.FleetRowsAt | zestaw_9/alien_invasion.py:178-189 | in the first k rows, index r*columns + c holds the alien of column c, row r |
| Fleet.FleetGrid | zestaw_9/alien_invasion.py:182-189 | in the full fleet, index r*columns + c is at x = aw + 2*aw*c, y = ah + 2*ah*r |
| Fleet.FleetGap | zestaw_9/alien_invasion.py:182-188 | horizontally adjacent aliens of a fresh fleet share a row and are exactly one alien width apart |
| Fleet.BuildFleet | zestaw_9/alien_invasion.py:166-189 | the nested row/column loops build exactly the fleet `CreateFleet` describes |
| Fleet.ChangeFleetDirection | zestaw_9/alien_invasion.py:198-203 | every alien drops by the drop speed with x and size unchanged, and the direction flips |
| Fleet.ChangeFleetDirectionTwice | zestaw_9/alien_invasion.py:198-203 | two direction changes restore the direction and drop every alien twice |
| Fleet.CheckFleetEdges | zestaw_9/alien_invasion.py:191-196 | the direction flips at most once, and flips exactly when some alien is at an edge; then the fleet is dropped once, otherwise aliens and direction are unchanged |
| Fleet.ScanFleetEdges | zestaw_9/alien_invasion.py:191-196 | the scan that stops at the first alien at an edge gives the same result as the edge check above |
| Fleet.MoveFleet | zestaw_9/alien_invasion.py:136 | every alien moves by the same alien speed times direction, with y and size unchanged, so every horizontal gap between two aliens is kept |
| Bullets.Fire | zestaw_9/alien_invasion.py:106-110 | a bullet is appended only while the group is below the cap; a group within the cap stays within it |
| Bullets.FireRepeatedly | zestaw_9/alien_invasion.py:106-110 | any sequence of fire presses keeps a group that starts within the cap within it, and never shrinks it |
| Bullets.RemoveOffScreen | zestaw_9/alien_invasion.py:116-118 | a bullet is kept exactly when it was in the group and its bottom is above the top of the screen, with every copy of it kept (multiset count unchanged for on-screen bullets, zero for the rest) |
| Bullets.RemoveOffScreenIdempotent | zestaw_9/alien_invasion.py:116-118 | filtering an already filtered group changes nothing |
| Bullets.Collide | zestaw_9/alien_invasion.py:124-125 | survivors come from the inputs; an alien survives exactly when no bullet overlaps it; no surviving bullet overlaps a surviving alien; a bullet that overlaps no alien survives; an alien dies only by taking a bullet with it, and each lost bullet took at least one alien; bullets survive with their multiplicity, never gaining copies, and a bullet that overlaps no alien keeps every copy |
| Invasion.Initial | zestaw_9/alien_invasion.py:24-37 | a new session has a fresh fleet, no bullets, a centred idle ship and the base speeds and direction |
| Invasion.ShipHit | zestaw_9/alien_invasion.py:143-155 | the ship count drops by exactly one; with ships left the bullets are cleared, a full fleet is built and the ship recentred; otherwise the game becomes inactive and the board is untouched; settings never change |
| Invasion.ShipHitsCount | zestaw_9/alien_invasion.py:143-155 | from an active game, k hits lower the count by k and the game is still active exactly when ships remain |
| Invasion.StartGame | zestaw_9/alien_invasion.py:74-84 | a started game is active with the full ship count, no bullets, a full fleet and a recentred ship; speeds and direction are kept |
| Invasion.ClickPlay | zestaw_9/alien_invasion.py:67-72 | a click starts a game only on the button while inactive, and then resets speeds and direction to their base values, clears the board and recentres the ship; anything else changes nothing |
| Invasion.KeyDownEvent | zestaw_9/alien_invasion.py:86-97 | only `q` exits; arrows set one flag; space fires under the cap; `g` starts a game only while inactive; other keys change nothing |
| Invasion.KeyUpEvent | zestaw_9/alien_invasion.py:99-104 | releasing an arrow clears exactly its flag; other keys change nothing |
| Invasion.ArrowPressRelease | zestaw_9/alien_invasion.py:86-104 | pressing and releasing an arrow key restores a ship that was not moving that way |
| Invasion.KeyStartKeepsSpeeds | zestaw_9/alien_invasion.py:67-97 | starting by `g` keeps the old speeds and direction and otherwise agrees with starting from the button |
| Invasion.HandleEvent | zestaw_9/alien_invasion.py:54-65 | an event ends the process exactly when it is a window close or the `q` key |
| Invasion.HandleEvents | zestaw_9/alien_invasion.py:54-65 | a batch of events ends the process exactly when one of them is a quit event |
| Invasion.StepBullets | zestaw_9/alien_invasion.py:114 | each bullet is replaced, at its own position, by one move of that bullet under the current speeds; none is added or lost |
| Invasion.MovedBullets | zestaw_9/alien_invasion.py:112-118 | after moving and filtering, no bullet is added, every remaining bullet is on screen, and every moved bullet still on screen is kept with all its copies |
| Invasion.UpdateBullets | zestaw_9/alien_invasion.py:112-130 | if the collision leaves no alien, bullets are cleared, a full fleet is built and the speeds increased; otherwise the collision survivors remain and speeds are kept; every remaining bullet is on screen and the group never grows |
| Invasion.FreshFleetNotAtBottom | zestaw_9/alien_invasion.py:157-176 | no alien of a fresh fleet satisfies the bottom-of-screen test |
| Invasion.ShipCollides | zestaw_9/alien_invasion.py:138 | the ship is hit exactly when some alien of the fleet overlaps it |
| Invasion.AlienAtBottom | zestaw_9/alien_invasion.py:160-162 | the bottom test fires exactly when some alien reaches or passes the screen's bottom |
| Invasion.AdvanceFleet | zestaw_9/alien_invasion.py:132-136 | the direction flips exactly when some alien was at an edge; every alien drops by the same amount (the drop speed or zero) and steps by the alien speed in the new direction |
| Invasion.UpdateAliens | zestaw_9/alien_invasion.py:132-164 | the count drops by at most two; by two only when the game ends; by at most one while more than one ship was left; it is unchanged exactly when no alien touches the ship or the bottom, and then only the fleet moves; one lost ship is one ship hit applied to the advanced fleet, two lost ships are two hits in a row |
| Invasion.DoubleHitExample | zestaw_9/alien_invasion.py:138-164 | with one ship left, an alien that touches the ship while at the bottom takes the count to -1 in one tick |
| Invasion.Tick | zestaw_9/alien_invasion.py:45-51 | nothing changes while inactive; a tick costs at most two ships and never adds bullets; while active, every remaining bullet is on screen and the fleet reverses exactly when, after the bullet update, some alien is at a side edge; when no ship is lost, the ship has made its move and the aliens are the bullet stage's survivors advanced by one fleet step |
| Invasion.Frame | zestaw_9/alien_invasion.py:45-52 | a frame ends the process exactly when a quit event is among its events; otherwise it is one tick applied to the game the events left behind |
| Invasion.InitialInv | zestaw_9/alien_invasion.py:24-37 | a new session keeps the bullet cap, the ship on the bottom row and every alien at the image's size |
| Invasion.HandleEventInv | zestaw_9/alien_invasion.py:54-104 | every event handler keeps that invariant |
| Invasion.HandleEventsInv | zestaw_9/alien_invasion.py:54-65 | a batch of events keeps that invariant |
| Invasion.ShipHitInv | zestaw_9/alien_invasion.py:143-155 | a ship hit keeps that invariant |
| Invasion.UpdateBulletsInv | zestaw_9/alien_invasion.py:112-130 | the bullet stage keeps that invariant |
| Invasion.AdvanceFleetInv | zestaw_9/alien_invasion.py:135-136 | the fleet's edge check and step keep that invariant |
| Invasion.UpdateAliensInv | zestaw_9/alien_invasion.py:132-164 | the alien stage, with its ship hits, keeps that invariant |
| Invasion.TickInv | zestaw_9/alien_invasion.py:48-51 | a simulation tick keeps that invariant |
| Invasion.FrameInv | zestaw_9/alien_invasion.py:45-51 | a whole frame keeps that invariant |

## Left out

- Rendering and windowing (`_update_screen`, `blitme`, the button's drawing, `set_mode`, image loading, cursor visibility): library side effects with no logic to check.
- Process control: `sys.exit` is the `Exited` outcome; the one-second `sleep` after a hit is dropped; the endless `run_game` loop is modelled one frame at a time.
- Floating-point positions: the source keeps a float `x` beside the integer rect and truncates on assignment; with integer speeds the two always agree, so one integer `x` is kept. Fractional speeds are not modelled.
- `settings.py`, `game_stats.py`, `bullet.py` and `button.py` are not part of this model: their values (`bullets_allowed`, the starting ship count, `fleet_drop_speed`, base speeds and direction), a bullet's motion and spawn position, and `increase_speed` are parameters. `increase_speed` is assumed to touch only the speeds, not the fleet direction.
- `Initial`: the statistics object's starting values are parameters rather than derived from `reset_stats`.
- pygame's collision queries (`groupcollide`, `spritecollideany`, `collidepoint`) are not shown: overlap is a parameter, and a click's hit on the button arrives as a flag. `Collide` follows pygame's order (each bullet in turn kills the aliens it overlaps that are still alive).
- Sprite groups are sequences of rects; two sprites with equal rects are indistinguishable, which no overlap test can tell apart anyway.
- A zero-sized alien image: `_create_fleet` would divide by zero and raise; the model requires positive alien width and height (`Config.Valid`) instead of modelling that crash.
- ShipMotion.NotAClamp: stated for non-negative ship speeds only, since the speed's sign is fixed in `settings.py`.

=== FILE: alien.dfy ===
/** A single alien: its starting spot, the screen-edge test and its
    horizontal step. */
module AlienMotion {
  import opened Geometry
  import opened Settings

  /** A fresh alien of the image's size, one alien-size in from the
      top-left corner of the screen. */
  function NewAlien(w: int, h: int): (a: Rect)
    ensures a.w == w && a.h == h
    ensures a.Left() == a.w && a.Top() == a.h
  {
    Rect(w, h, w, h)
  }

  /**
   * True when the alien touches or crosses either side of the screen;
   * equivalently, it is not strictly inside the horizontal span (0, screenRight).
   */
  predicate AtEdge(a: Rect, screenRight: int): (r: bool)
    ensures !r <==> 0 < a.x && a.x + a.w < screenRight
  {
    a.Right() >= screenRight || a.Left() <= 0
  }

  /** One tick of alien motion: `alienSpeed` pixels in the fleet's direction. */
  function Step(a: Rect, alienSpeed: int, dir: Direction): (r: Rect)
    ensures r.y == a.y && r.w == a.w && r.h == a.h
    ensures dir == 1 ==> r.x == a.x + alienSpeed
    ensures dir == -1 ==> r.x == a.x - alienSpeed
  {
    a.(x := a.x + alienSpeed * dir)
  }

  /** A step in the reversed direction undoes a step. */
  lemma StepReversed(a: Rect, alienSpeed: int, dir: Direction)
    ensures Step(Step(a, alienSpeed, dir), alienSpeed, dir * -1) == a
  {
  }
}

=== FILE: bullets.dfy ===
/** The bullet group: the firing cap, the off-screen filter and the
    bullet-versus-alien collision that kills both sides. */
module Bullets {
  import opened Geometry

  /** `_fire_bullet`: a new bullet joins the group only while the group is
      below the cap. */
  function Fire(bullets: seq<Rect>, bulletsAllowed: int, spawned: Rect): (r: seq<Rect>)
    ensures |bullets| < bulletsAllowed ==> r == bullets + [spawned]
    ensures |bullets| >= bulletsAllowed ==> r == bullets
    ensures |bullets| <= bulletsAllowed ==> |r| <= bulletsAllowed
  {
    if |bullets| < bulletsAllowed then bullets + [spawned] else bullets
  }

  /** However many times the fire key is pressed, firing alone never takes
      the group past the cap, and never below where it was. */
  lemma {:induction false} FireRepeatedly(bullets: seq<Rect>, bulletsAllowed: int, shots: seq<Rect>)
    requires |bullets| <= bulletsAllowed
    ensures |FireAll(bullets, bulletsAllowed, shots)| <= bulletsAllowed
    ensures |bullets| <= |FireAll(bullets, bulletsAllowed, shots)|
    decreases |shots|
  {
    if |shots| > 0 {
      FireRepeatedly(Fire(bullets, bulletsAllowed, shots[0]), bulletsAllowed, shots[1..]);
    }
  }

  /** Fire once for each bullet in `shots`, in order. */
  function FireAll(bullets: seq<Rect>, bulletsAllowed: int, shots: seq<Rect>): seq<Rect>
    decreases |shots|
  {
    if |shots| == 0 then bullets
    else FireAll(Fire(bullets, bulletsAllowed, shots[0]), bulletsAllowed, shots[1..])
  }

  /** A bullet is still on screen while its bottom edge is below the top. */
  predicate OnScreen(b: Rect) {
    b.Bottom() > 0
  }

  /** The filter part of `_update_bullets`: drop every bullet whose bottom
      edge has reached the top of the screen. */
  function RemoveOffScreen(bullets: seq<Rect>): (r: seq<Rect>)
    ensures |r| <= |bullets|
    ensures forall b :: b in r ==> b.Bottom() > 0
    ensures forall b :: b in bullets && b.Bottom() > 0 ==> b in r
    ensures forall b :: b in r ==> b in bullets
    ensures forall b :: multiset(r)[b] == if b.Bottom() > 0 then multiset(bullets)[b] else 0
  {
    Filter(bullets, OnScreen)
  }

  /** Filtering again removes nothing. */
  lemma RemoveOffScreenIdempotent(bullets: seq<Rect>)
    ensures RemoveOffScreen(RemoveOffScreen(bullets)) == RemoveOffScreen(bullets)
  {
  }

  /** True when bullet `b` overlaps none of `aliens`. */
  predicate Misses(b: Rect, aliens: seq<Rect>, hit: (Rect, Rect) -> bool) {
    forall a :: a in aliens ==> !hit(b, a)
  }

  /**
   * The multiset step of `Collide`: if the later bullets keep their copies
   * against the spared aliens, then the first bullet's pass keeps them
   * against the whole fleet.
   */
  lemma CollideStepBullets(b: Rect, tail: seq<Rect>, aliens: seq<Rect>, spared: seq<Rect>,
                           rest: seq<Rect>, hit: (Rect, Rect) -> bool)
    requires forall a :: a in spared ==> a in aliens
    requires multiset(rest) <= multiset(tail)
    requires forall c :: Misses(c, spared, hit) ==> multiset(rest)[c] == multiset(tail)[c]
    ensures multiset(rest) <= multiset([b] + tail)
    ensures multiset([b] + rest) <= multiset([b] + tail)
    ensures forall c :: Misses(c, aliens, hit) ==> multiset([b] + rest)[c] == multiset([b] + tail)[c]
    ensures !Misses(b, aliens, hit) ==>
      forall c :: Misses(c, aliens, hit) ==> multiset(rest)[c] == multiset([b] + tail)[c]
  {
    assert multiset([b] + tail) == multiset{b} + multiset(tail);
    assert multiset([b] + rest) == multiset{b} + multiset(rest);
  }

  /** `pygame.sprite.groupcollide(bullets, aliens, True, True)` with the
      overlap test `hit`: bullets are taken in order; a bullet that overlaps
      any alien still alive is removed together with every alien it
      overlaps. Returns the surviving bullets and aliens. */
  function Collide(bullets: seq<Rect>, aliens: seq<Rect>, hit: (Rect, Rect) -> bool): (r: (seq<Rect>, seq<Rect>))
    ensures |r.0| <= |bullets| && |r.1| <= |aliens|
    ensures forall b :: b in r.0 ==> b in bullets
    ensures forall a :: a in r.1 ==> a in aliens
    // no survivor on one side overlaps a survivor on the other
    ensures forall b, a :: b in r.0 && a in r.1 ==> !hit(b, a)
    // an alien that no bullet overlaps survives
    ensures forall a :: a in aliens && (forall b :: b in bullets ==> !hit(b, a)) ==> a in r.1
    // a bullet that overlaps no alien survives
    ensures forall b :: b in bullets && (forall a :: a in aliens ==> !hit(b, a)) ==> b in r.0
    // an alien dies only by taking a bullet with it, and each lost bullet took an alien
    ensures |r.1| < |aliens| ==> |r.0| < |bullets|
    ensures |bullets| - |r.0| <= |aliens| - |r.1|
    // an alien survives exactly when no bullet overlaps it
    ensures forall a :: a in r.1 <==> a in aliens && forall b :: b in bullets ==> !hit(b, a)
    // bullets survive with their multiplicity, and one that overlaps no alien keeps all its copies
    ensures multiset(r.0) <= multiset(bullets)
    ensures forall b :: Misses(b, aliens, hit) ==> multiset(r.0)[b] == multiset(bullets)[b]
    decreases |bullets|
  {
    if |bullets| == 0 then ([], aliens)
    else
      var b := bullets[0];
      var spared := Filter(aliens, a => !hit(b, a));
      var rest := Collide(bullets[1..], spared, hit);
      assert bullets == [b] + bullets[1..];
      assert |spared| < |aliens| ==> !Misses(b, aliens, hit);
      CollideStepBullets(b, bullets[1..], aliens, spared, rest.0, hit);
      if |spared| < |aliens| then rest else ([b] + rest.0, rest.1)
  }
}

=== FILE: fleet.dfy ===
/** The alien fleet: construction on a fixed grid, the collective
    edge-bounce with its drop, and the per-tick horizontal step. */
module Fleet {
  import opened Geometry
  import opened Settings
  import AlienMotion

  /** Python's `range(n)` has no elements when `n` is negative. */
  function Count(n: int): (c: nat)
    ensures n >= 0 ==> c == n
    ensures n < 0 ==> c == 0
  {
    if n < 0 then 0 else n
  }

  /** `a <= b` is kept by multiplying with a non-negative factor. */
  lemma MulMonotone(k: int, a: int, b: int)
    requires k >= 0 && a <= b
    ensures k * a <= k * b
  {
  }

  /** Aliens per row: how many double-width slots fit in the screen width
      once a double-width margin is kept. `_create_fleet`'s `//` divides by a
      positive number here, where it agrees with Dafny's `/`. */
  function Columns(cfg: Config): (n: int)
    requires cfg.Valid()
    ensures 2 * cfg.alienW * n <= cfg.screenW - 2 * cfg.alienW < 2 * cfg.alienW * (n + 1)
  {
    (cfg.screenW - 2 * cfg.alienW) / (2 * cfg.alienW)
  }

  /** Rows of aliens: how many double-height slots fit in the screen height
      once three alien heights and the ship's height are kept free. */
  function Rows(cfg: Config): (n: int)
    requires cfg.Valid()
    ensures 2 * cfg.alienH * n <= cfg.screenH - 3 * cfg.alienH - cfg.shipH
                                < 2 * cfg.alienH * (n + 1)
  {
    (cfg.screenH - 3 * cfg.alienH - cfg.shipH) / (2 * cfg.alienH)
  }

  /** The alien placed at column `col` of row `row`. */
  function GridAlien(cfg: Config, col: int, row: int): (a: Rect)
    ensures a.w == cfg.alienW && a.h == cfg.alienH
    ensures a.Left() == cfg.alienW + 2 * cfg.alienW * col
    ensures a.Top() == cfg.alienH + 2 * cfg.alienH * row
  {
    var a := AlienMotion.NewAlien(cfg.alienW, cfg.alienH);
    a.(x := a.w + 2 * a.w * col, y := a.h + 2 * a.h * row)
  }

  /** One full row of the grid, left to right. */
  function FleetRow(cfg: Config, row: int, cols: nat): (r: seq<Rect>)
    ensures |r| == cols
    ensures forall c :: 0 <= c < cols ==> r[c] == GridAlien(cfg, c, row)
  {
    seq(cols, c => GridAlien(cfg, c, row))
  }

  /** Every alien of the first `k` rows is of the image's size and lies
      inside the grid's bounding box. */
  ghost predicate InGrid(cfg: Config, a: Rect, k: int)
    requires cfg.Valid()
  {
    && a.w == cfg.alienW && a.h == cfg.alienH
    && cfg.alienW <= a.Left() && a.Right() <= 2 * cfg.alienW * Count(Columns(cfg))
    && cfg.alienH <= a.Top() && a.Bottom() <= 2 * cfg.alienH * k
  }

  /** The first `k` rows of the fleet, built row after row as `_create_fleet`'s
      nested loops do. */
  function FleetRows(cfg: Config, k: nat): (r: seq<Rect>)
    requires cfg.Valid()
    ensures |r| == k * Count(Columns(cfg))
    ensures forall a :: a in r ==> InGrid(cfg, a, k)
  {
    if k == 0 then []
    else
      var cols := Count(Columns(cfg));
      var prev := FleetRows(cfg, k - 1);
      var row := FleetRow(cfg, k - 1, cols);
      assert forall a :: a in prev ==> InGrid(cfg, a, k) by {
        MulMonotone(2 * cfg.alienH, k - 1, k);
      }
      assert forall c :: 0 <= c < cols ==> InGrid(cfg, row[c], k) by {
        forall c | 0 <= c < cols ensures InGrid(cfg, row[c], k) {
          GridAlienInGrid(cfg, c, k - 1);
        }
      }
      assert |prev + row| == k * cols by {
        assert (k - 1) * cols + cols == k * cols;
      }
      prev + row
  }

  /** The alien of column `c < columns` in row `row` lies inside the box of
      the first `row + 1` rows. */
  lemma GridAlienInGrid(cfg: Config, c: int, row: nat)
    requires cfg.Valid() && 0 <= c < Count(Columns(cfg))
    ensures InGrid(cfg, GridAlien(cfg, c, row), row + 1)
  {
    MulMonotone(2 * cfg.alienW, c + 1, Count(Columns(cfg)));
    assert 2 * cfg.alienH * row + 2 * cfg.alienH == 2 * cfg.alienH * (row + 1);
  }

  /** The full fleet `_create_fleet` builds. */
  function CreateFleet(cfg: Config): (fleet: seq<Rect>)
    requires cfg.Valid()
    ensures |fleet| == Count(Rows(cfg)) * Count(Columns(cfg))
    ensures forall a :: a in fleet ==> FreshlyPlaced(cfg, a)
    ensures forall a :: a in fleet ==> !AlienMotion.AtEdge(a, cfg.screenW) && a.Bottom() < cfg.screenH
  {
    var fleet := FleetRows(cfg, Count(Rows(cfg)));
    assert forall a :: a in fleet ==> FreshlyPlaced(cfg, a) by {
      forall a | a in fleet ensures FreshlyPlaced(cfg, a) {
        assert InGrid(cfg, a, Count(Rows(cfg)));
      }
    }
    fleet
  }

  /** Where a freshly built alien can be: of the image's size, at least one
      alien width from the left edge, at least two alien widths from the
      right edge, at least one alien height from the top, and clear of the
      bottom band of three alien heights plus the ship's height. */
  ghost predicate FreshlyPlaced(cfg: Config, a: Rect) {
    && a.w == cfg.alienW && a.h == cfg.alienH
    && cfg.alienW <= a.Left() && a.Right() <= cfg.screenW - 2 * cfg.alienW
    && cfg.alienH <= a.Top() && a.Bottom() <= cfg.screenH - 3 * cfg.alienH - cfg.shipH
  }

  /** The alien at row `r`, column `c` of the first `k` rows sits at its
      grid position. */
  lemma {:induction false} FleetRowsAt(cfg: Config, k: nat, r: int, c: int)
    requires cfg.Valid()
    requires 0 <= r < k && 0 <= c < Count(Columns(cfg))
    ensures r * Count(Columns(cfg)) + c < |FleetRows(cfg, k)|
    ensures FleetRows(cfg, k)[r * Count(Columns(cfg)) + c] == GridAlien(cfg, c, r)
  {
    var cols := Count(Columns(cfg));
    assert FleetRows(cfg, k) == FleetRows(cfg, k - 1) + FleetRow(cfg, k - 1, cols);
    if r < k - 1 {
      FleetRowsAt(cfg, k - 1, r, c);
    }
  }

  /** Grid placement: the fleet lists its aliens row by row, and the alien at
      row `r`, column `c` is at (aw + 2*aw*c, ah + 2*ah*r). */
  lemma FleetGrid(cfg: Config, r: int, c: int)
    requires cfg.Valid()
    requires 0 <= r < Rows(cfg) && 0 <= c < Columns(cfg)
    ensures r * Columns(cfg) + c < |CreateFleet(cfg)|
    ensures CreateFleet(cfg)[r * Columns(cfg) + c].Left() == cfg.alienW + 2 * cfg.alienW * c
    ensures CreateFleet(cfg)[r * Columns(cfg) + c].Top() == cfg.alienH + 2 * cfg.alienH * r
  {
    FleetRowsAt(cfg, Rows(cfg), r, c);
  }

  /** Horizontally adjacent aliens of a fresh fleet are separated by a gap of
      exactly one alien width, and share their row's height. */
  lemma FleetGap(cfg: Config, r: int, c: int)
    requires cfg.Valid()
    requires 0 <= r < Rows(cfg) && 0 <= c && c + 1 < Columns(cfg)
    ensures r * Columns(cfg) + c + 1 < |CreateFleet(cfg)|
    ensures var f := CreateFleet(cfg);
            var i := r * Columns(cfg) + c;
            f[i + 1].Left() - f[i].Right() == cfg.alienW && f[i + 1].Top() == f[i].Top()
  {
    FleetRowsAt(cfg, Rows(cfg), r, c);
    FleetRowsAt(cfg, Rows(cfg), r, c + 1);
  }

  /** `_create_fleet` as written: two nested counting loops, rows outside,
      columns inside, appending one alien per step. */
  method BuildFleet(cfg: Config) returns (fleet: seq<Rect>)
    requires cfg.Valid()
    ensures fleet == CreateFleet(cfg)
    ensures |fleet| == Count(Rows(cfg)) * Count(Columns(cfg))
  {
    var cols := Columns(cfg);
    var rows := Rows(cfg);
    fleet := [];
    var row := 0;
    while row < rows
      invariant 0 <= row <= Count(rows)
      invariant fleet == FleetRows(cfg, row)
    {
      var col := 0;
      while col < cols
        invariant 0 <= col <= Count(cols)
        invariant fleet == FleetRows(cfg, row) + FleetRow(cfg, row, col)
      {
        assert FleetRow(cfg, row, col + 1) == FleetRow(cfg, row, col) + [GridAlien(cfg, col, row)];
        fleet := fleet + [GridAlien(cfg, col, row)];
        col := col + 1;
      }
      row := row + 1;
    }
  }

  /** Every alien drops by `drop` and the fleet's direction flips. */
  function ChangeFleetDirection(aliens: seq<Rect>, dir: Direction, drop: int): (r: (seq<Rect>, Direction))
    ensures |r.0| == |aliens|
    ensures forall i :: 0 <= i < |aliens| ==>
      r.0[i].x == aliens[i].x && r.0[i].y == aliens[i].y + drop
      && r.0[i].w == aliens[i].w && r.0[i].h == aliens[i].h
    ensures r.1 != dir
  {
    (seq(|aliens|, i requires 0 <= i < |aliens| => aliens[i].(y := aliens[i].y + drop)), dir * -1)
  }

  /** Changing direction twice restores the direction and drops the fleet
      twice. */
  lemma ChangeFleetDirectionTwice(aliens: seq<Rect>, dir: Direction, drop: int)
    ensures var (a1, d1) := ChangeFleetDirection(aliens, dir, drop);
            var (a2, d2) := ChangeFleetDirection(a1, d1, drop);
            d2 == dir && |a2| == |aliens|
            && forall i :: 0 <= i < |aliens| ==> a2[i] == aliens[i].(y := aliens[i].y + 2 * drop)
  {
  }

  /** Some alien of the fleet is at a screen edge. */
  predicate AnyAtEdge(aliens: seq<Rect>, screenRight: int) {
    exists i :: 0 <= i < |aliens| && AlienMotion.AtEdge(aliens[i], screenRight)
  }

  /** `_check_fleet_edges`: the fleet reverses at most once per tick, and
      only when some alien is at an edge. */
  function CheckFleetEdges(aliens: seq<Rect>, dir: Direction, drop: int, screenRight: int): (r: (seq<Rect>, Direction))
    ensures |r.0| == |aliens|
    ensures r.1 == dir * -1 <==> AnyAtEdge(aliens, screenRight)
    // every alien drops by the same amount: the drop speed on a reversal, else nothing
    ensures forall i :: 0 <= i < |aliens| ==>
      r.0[i] == aliens[i].(y := aliens[i].y + if AnyAtEdge(aliens, screenRight) then drop else 0)
    ensures !AnyAtEdge(aliens, screenRight) ==> r == (aliens, dir)
  {
    if AnyAtEdge(aliens, screenRight) then ChangeFleetDirection(aliens, dir, drop) else (aliens, dir)
  }

  /** `_check_fleet_edges` as written: scan the aliens in order and, at the
      first one at an edge, change the fleet's direction and stop. */
  method ScanFleetEdges(aliens: seq<Rect>, dir: Direction, drop: int, screenRight: int)
    returns (aliens': seq<Rect>, dir': Direction)
    ensures (aliens', dir') == CheckFleetEdges(aliens, dir, drop, screenRight)
  {
    aliens', dir' := aliens, dir;
    var i := 0;
    while i < |aliens|
      invariant 0 <= i <= |aliens|
      invariant forall j :: 0 <= j < i ==> !AlienMotion.AtEdge(aliens[j], screenRight)
      invariant (aliens', dir') == (aliens, dir)
    {
      if AlienMotion.AtEdge(aliens[i], screenRight) {
        var changed := ChangeFleetDirection(aliens, dir, drop);
        aliens', dir' := changed.0, changed.1;
        return;
      }
      i := i + 1;
    }
  }

  /** `aliens.update()`: every alien steps `alienSpeed` in the direction. */
  function MoveFleet(aliens: seq<Rect>, alienSpeed: int, dir: Direction): (r: seq<Rect>)
    ensures |r| == |aliens|
    ensures forall i :: 0 <= i < |aliens| ==>
      r[i].x - aliens[i].x == alienSpeed * dir
      && r[i].y == aliens[i].y && r[i].w == aliens[i].w && r[i].h == aliens[i].h
    // the fleet moves as one block: every horizontal gap is kept
    ensures forall i, j :: 0 <= i < |aliens| && 0 <= j < |aliens| ==>
      r[j].x - r[i].x == aliens[j].x - aliens[i].x
  {
    seq(|aliens|, i requires 0 <= i < |aliens| => AlienMotion.Step(aliens[i], alienSpeed, dir))
  }
}

=== FILE: geometry.dfy ===
/** Integer rectangles in screen coordinates (y grows downwards), and the
    generic sequence filter the sprite groups are built on. */
module Geometry {

  /** A sprite's bounding box: top-left corner and size. */
  datatype Rect = Rect(x: int, y: int, w: int, h: int) {
    function Left(): int { x }
    function Right(): int { x + w }
    function Top(): int { y }
    function Bottom(): int { y + h }
  }

  /** The elements of `s` that satisfy `keep`, in their original order. */
  function Filter<T(!new)>(s: seq<T>, keep: T -> bool): (r: seq<T>)
    ensures |r| <= |s|
    ensures forall x :: x in r <==> x in s && keep(x)
    ensures (forall i :: 0 <= i < |s| ==> keep(s[i])) ==> r == s
    // every kept value keeps all its copies
    ensures forall x :: multiset(r)[x] == if keep(x) then multiset(s)[x] else 0
  {
    if |s| == 0 then []
    else
      assert s == [s[0]] + s[1..];
      if keep(s[0]) then [s[0]] + Filter(s[1..], keep)
      else Filter(s[1..], keep)
  }
}

=== FILE: invasion.dfy ===
/** The game session: lives and the active/inactive flag, starting a game,
    the key and mouse handlers, and one tick of the simulation. */
module Invasion {
  import opened Geometry
  import opened Settings
  import opened ShipMotion
  import Fleet
  import Bullets
  import AlienMotion

  /** Everything the game object holds that the simulation reads or writes. */
  datatype Game = Game(
    ship: Ship,
    aliens: seq<Rect>,
    bullets: seq<Rect>,
    speeds: Speeds,
    direction: Direction,
    shipsLeft: int,
    active: bool)

  /** Collaborators whose code is not part of this model. */
  datatype Env = Env(
    overlap: (Rect, Rect) -> bool,       // pygame's rect-against-rect collision test
    moveBullet: (Rect, Speeds) -> Rect,  // one tick of a bullet's own motion
    spawnBullet: Rect -> Rect,           // a new bullet's rect, from the ship's rect
    increaseSpeed: Speeds -> Speeds)     // the speed-up after a fleet is wiped out

  datatype Key = RightArrow | LeftArrow | KeyQ | Space | KeyG | OtherKey

  /** The input events the game reacts to; whether a click lands on the play
      button is decided by the button's rect and arrives here as a flag. */
  datatype Event = QuitEvent | KeyDown(key: Key) | KeyUp(key: Key) | MouseDown(onPlayButton: bool) | OtherEvent

  /** Either the game goes on, or the process has exited. */
  datatype Outcome = Running(game: Game) | Exited

  /** The session as the game object's constructor leaves it; the starting
      statistics come from the statistics object and are parameters. */
  function Initial(cfg: Config, shipsLeft: int, active: bool): (g: Game)
    requires cfg.Valid()
    ensures g.aliens == Fleet.CreateFleet(cfg) && g.bullets == []
    ensures g.ship == NewShip(cfg)
    ensures g.speeds == cfg.baseSpeeds && g.direction == cfg.baseDirection
  {
    Game(NewShip(cfg), Fleet.CreateFleet(cfg), [], cfg.baseSpeeds, cfg.baseDirection, shipsLeft, active)
  }

  /** `_ship_hit`: lose one ship; with ships to spare, clear the board, bring
      in a new fleet and recentre the ship, otherwise end the game and leave
      the board as it is. */
  function ShipHit(g: Game, cfg: Config): (r: Game)
    requires cfg.Valid()
    ensures r.shipsLeft == g.shipsLeft - 1
    ensures r.speeds == g.speeds && r.direction == g.direction
    ensures r.shipsLeft > 0 ==>
      r.active == g.active && r.bullets == [] && r.aliens == Fleet.CreateFleet(cfg)
      && r.ship == CenterShip(g.ship, cfg)
    ensures r.shipsLeft <= 0 ==>
      !r.active && r.aliens == g.aliens && r.bullets == g.bullets && r.ship == g.ship
  {
    var left := g.shipsLeft - 1;
    if left > 0 then
      g.(shipsLeft := left, aliens := Fleet.CreateFleet(cfg), bullets := [], ship := CenterShip(g.ship, cfg))
    else
      g.(shipsLeft := left, active := false)
  }

  /** `k` ship hits in a row. */
  function ShipHits(g: Game, cfg: Config, k: nat): Game
    requires cfg.Valid()
  {
    if k == 0 then g else ShipHit(ShipHits(g, cfg, k - 1), cfg)
  }

  /** Lives: starting from an active game, after `k` hits the count has gone
      down by exactly `k`, and the game is still on exactly when ships are
      left. */
  lemma {:induction false} ShipHitsCount(g: Game, cfg: Config, k: nat)
    requires cfg.Valid() && g.active && k >= 1
    ensures ShipHits(g, cfg, k).shipsLeft == g.shipsLeft - k
    ensures ShipHits(g, cfg, k).active <==> g.shipsLeft - k > 0
  {
    if k > 1 {
      ShipHitsCount(g, cfg, k - 1);
    }
  }

  /** `_start_game`: fresh statistics, an empty board with a new fleet and a
      recentred ship. The dynamic settings are not touched here. */
  function StartGame(g: Game, cfg: Config): (r: Game)
    requires cfg.Valid()
    ensures r.active && r.shipsLeft == cfg.shipLimit
    ensures r.bullets == [] && r.aliens == Fleet.CreateFleet(cfg)
    ensures r.ship == CenterShip(g.ship, cfg)
    ensures r.speeds == g.speeds && r.direction == g.direction
  {
    g.(shipsLeft := cfg.shipLimit, active := true, bullets := [],
       aliens := Fleet.CreateFleet(cfg), ship := CenterShip(g.ship, cfg))
  }

  /** `_check_play_button`: a click on the button while no game is running
      resets the dynamic settings and starts a game; any other click does
      nothing. */
  function ClickPlay(g: Game, onPlayButton: bool, cfg: Config): (r: Game)
    requires cfg.Valid()
    ensures !(onPlayButton && !g.active) ==> r == g
    ensures onPlayButton && !g.active ==>
      r.active && r.bullets == [] && r.aliens == Fleet.CreateFleet(cfg)
      && r.shipsLeft == cfg.shipLimit
      && r.speeds == cfg.baseSpeeds && r.direction == cfg.baseDirection
      && r.ship == CenterShip(g.ship, cfg)
  {
    if onPlayButton && !g.active then
      StartGame(g.(speeds := cfg.baseSpeeds, direction := cfg.baseDirection), cfg)
    else g
  }

  /** `_check_keydown_events`. */
  function KeyDownEvent(g: Game, k: Key, cfg: Config, env: Env): (r: Outcome)
    requires cfg.Valid()
    ensures r.Exited? <==> k == KeyQ
    ensures k == RightArrow ==> r == Running(g.(ship := g.ship.(movingRight := true)))
    ensures k == LeftArrow ==> r == Running(g.(ship := g.ship.(movingLeft := true)))
    ensures k == Space ==>
      r == Running(g.(bullets := Bullets.Fire(g.bullets, cfg.bulletsAllowed, env.spawnBullet(g.ship.rect))))
    ensures k == KeyG && !g.active ==> r == Running(StartGame(g, cfg))
    ensures (k == KeyG && g.active) || k == OtherKey ==> r == Running(g)
  {
    match k
    case RightArrow => Running(g.(ship := g.ship.(movingRight := true)))
    case LeftArrow => Running(g.(ship := g.ship.(movingLeft := true)))
    case KeyQ => Exited
    case Space =>
      Running(g.(bullets := Bullets.Fire(g.bullets, cfg.bulletsAllowed, env.spawnBullet(g.ship.rect))))
    case KeyG => if !g.active then Running(StartGame(g, cfg)) else Running(g)
    case OtherKey => Running(g)
  }

  /** `_check_keyup_events`. */
  function KeyUpEvent(g: Game, k: Key): (r: Game)
    ensures k == RightArrow ==> r == g.(ship := g.ship.(movingRight := false))
    ensures k == LeftArrow ==> r == g.(ship := g.ship.(movingLeft := false))
    ensures k != RightArrow && k != LeftArrow ==> r == g
  {
    match k
    case RightArrow => g.(ship := g.ship.(movingRight := false))
    case LeftArrow => g.(ship := g.ship.(movingLeft := false))
    case _ => g
  }

  /** Pressing and releasing an arrow key restores a ship that was not moving
      that way; the key press alone touches nothing but that one flag. */
  lemma ArrowPressRelease(g: Game, k: Key, cfg: Config, env: Env)
    requires cfg.Valid()
    requires k == RightArrow || k == LeftArrow
    requires k == RightArrow ==> !g.ship.movingRight
    requires k == LeftArrow ==> !g.ship.movingLeft
    ensures KeyDownEvent(g, k, cfg, env).Running?
    ensures KeyUpEvent(KeyDownEvent(g, k, cfg, env).game, k) == g
  {
  }

  /** The two ways to start a game differ only in the dynamic settings: the
      `g` key keeps the speeds and fleet direction of the last game, the play
      button resets them. */
  lemma KeyStartKeepsSpeeds(g: Game, cfg: Config, env: Env)
    requires cfg.Valid() && !g.active
    ensures KeyDownEvent(g, KeyG, cfg, env).Running?
    ensures var byKey := KeyDownEvent(g, KeyG, cfg, env).game;
            var byButton := ClickPlay(g, true, cfg);
            byKey.speeds == g.speeds && byKey.direction == g.direction
            && byKey.(speeds := cfg.baseSpeeds, direction := cfg.baseDirection) == byButton
  {
  }

  /** The events that end the process. */
  predicate Quits(e: Event) {
    e.QuitEvent? || e == KeyDown(KeyQ)
  }

  /** One event of `_check_events`. */
  function HandleEvent(g: Game, e: Event, cfg: Config, env: Env): (r: Outcome)
    requires cfg.Valid()
    ensures r.Exited? <==> Quits(e)
  {
    match e
    case QuitEvent => Exited
    case KeyDown(k) => KeyDownEvent(g, k, cfg, env)
    case KeyUp(k) => Running(KeyUpEvent(g, k))
    case MouseDown(onButton) => Running(ClickPlay(g, onButton, cfg))
    case OtherEvent => Running(g)
  }

  /** `_check_events`: the pending events in order, until one ends the
      process. */
  function HandleEvents(g: Game, events: seq<Event>, cfg: Config, env: Env): (r: Outcome)
    requires cfg.Valid()
    ensures r.Exited? <==> exists i :: 0 <= i < |events| && Quits(events[i])
    decreases |events|
  {
    if |events| == 0 then Running(g)
    else
      match HandleEvent(g, events[0], cfg, env)
      case Exited => Exited
      case Running(g1) =>
        var r := HandleEvents(g1, events[1..], cfg, env);
        assert forall i :: 1 <= i < |events| ==> events[i] == events[1..][i - 1];
        r
  }

  /** `bullets.update()`: every bullet after its own one-tick motion. */
  function StepBullets(g: Game, env: Env): (r: seq<Rect>)
    ensures |r| == |g.bullets|
    ensures forall i :: 0 <= i < |r| ==> r[i] == env.moveBullet(g.bullets[i], g.speeds)
  {
    seq(|g.bullets|, i requires 0 <= i < |g.bullets| => env.moveBullet(g.bullets[i], g.speeds))
  }

  /** The bullets moved by one tick and cleared of those off screen, before
      collisions. */
  function MovedBullets(g: Game, env: Env): (r: seq<Rect>)
    ensures |r| <= |g.bullets|
    ensures forall b :: b in r ==> b.Bottom() > 0
    // every moved bullet still on screen is kept, each copy of it
    ensures forall i :: 0 <= i < |g.bullets| && StepBullets(g, env)[i].Bottom() > 0 ==> StepBullets(g, env)[i] in r
    ensures forall b :: multiset(r)[b] == if b.Bottom() > 0 then multiset(StepBullets(g, env))[b] else 0
  {
    var moved := StepBullets(g, env);
    assert forall i :: 0 <= i < |moved| ==> moved[i] in moved;
    Bullets.RemoveOffScreen(moved)
  }

  /** `_update_bullets` with `_check_bullet_alien_collisions`: move, drop the
      bullets off screen, collide; if no alien is left, clear the bullets,
      bring in a new fleet and speed up. */
  function UpdateBullets(g: Game, cfg: Config, env: Env): (r: Game)
    requires cfg.Valid()
    ensures r.ship == g.ship && r.shipsLeft == g.shipsLeft && r.active == g.active
    ensures r.direction == g.direction
    ensures |r.bullets| <= |g.bullets|
    ensures forall b :: b in r.bullets ==> b.Bottom() > 0
    ensures var survivors := Bullets.Collide(MovedBullets(g, env), g.aliens, env.overlap);
      if |survivors.1| == 0 then
        r.bullets == [] && r.aliens == Fleet.CreateFleet(cfg) && r.speeds == env.increaseSpeed(g.speeds)
      else
        r.bullets == survivors.0 && r.aliens == survivors.1 && r.speeds == g.speeds
  {
    var survivors := Bullets.Collide(MovedBullets(g, env), g.aliens, env.overlap);
    if |survivors.1| == 0 then
      g.(bullets := [], aliens := Fleet.CreateFleet(cfg), speeds := env.increaseSpeed(g.speeds))
    else
      g.(bullets := survivors.0, aliens := survivors.1)
  }

  /** Some alien overlaps the ship. */
  predicate ShipCollides(g: Game, env: Env): (r: bool)
    ensures r <==> exists a :: a in g.aliens && env.overlap(g.ship.rect, a)
  {
    exists i :: 0 <= i < |g.aliens| && env.overlap(g.ship.rect, g.aliens[i])
  }

  /** Some alien has reached the bottom of the screen. */
  predicate AlienAtBottom(aliens: seq<Rect>, screenBottom: int): (r: bool)
    ensures r <==> exists a :: a in aliens && a.Bottom() >= screenBottom
  {
    exists i :: 0 <= i < |aliens| && aliens[i].Bottom() >= screenBottom
  }

  /** A fresh fleet never starts at the bottom of the screen. */
  lemma FreshFleetNotAtBottom(cfg: Config)
    requires cfg.Valid()
    ensures !AlienAtBottom(Fleet.CreateFleet(cfg), cfg.screenH)
  {
  }

  /** The aliens after the edge check and one step, before any hit. */
  function AdvanceFleet(g: Game, cfg: Config): (r: Game)
    ensures r.ship == g.ship && r.bullets == g.bullets && r.speeds == g.speeds
    ensures r.shipsLeft == g.shipsLeft && r.active == g.active
    ensures |r.aliens| == |g.aliens|
    ensures r.direction == g.direction * -1 <==> Fleet.AnyAtEdge(g.aliens, cfg.screenW)
    ensures r.direction == g.direction <==> !Fleet.AnyAtEdge(g.aliens, cfg.screenW)
    ensures var drop := if Fleet.AnyAtEdge(g.aliens, cfg.screenW) then cfg.fleetDropSpeed else 0;
      forall i :: 0 <= i < |g.aliens| ==>
        r.aliens[i].y == g.aliens[i].y + drop
        && r.aliens[i].x == g.aliens[i].x + g.speeds.alien * r.direction
        && r.aliens[i].w == g.aliens[i].w && r.aliens[i].h == g.aliens[i].h
  {
    var edged := Fleet.CheckFleetEdges(g.aliens, g.direction, cfg.fleetDropSpeed, cfg.screenW);
    g.(aliens := Fleet.MoveFleet(edged.0, g.speeds.alien, edged.1), direction := edged.1)
  }

  /** `_update_aliens`: edge check, step, then a hit for an alien touching
      the ship and another for an alien at the bottom. */
  function UpdateAliens(g: Game, cfg: Config, env: Env): (r: Game)
    requires cfg.Valid()
    ensures r.direction == AdvanceFleet(g, cfg).direction
    ensures r.speeds == g.speeds
    ensures g.shipsLeft - 2 <= r.shipsLeft <= g.shipsLeft
    // a second hit in one tick only comes after the game has ended
    ensures r.shipsLeft == g.shipsLeft - 2 ==> !r.active
    ensures g.shipsLeft > 1 ==> r.shipsLeft >= g.shipsLeft - 1
    ensures r.shipsLeft == g.shipsLeft <==>
      !ShipCollides(AdvanceFleet(g, cfg), env) && !AlienAtBottom(AdvanceFleet(g, cfg).aliens, cfg.screenH)
    ensures r.shipsLeft == g.shipsLeft ==> r == AdvanceFleet(g, cfg)
    // each lost ship is one full `_ship_hit` applied to the advanced fleet
    ensures r.shipsLeft == g.shipsLeft - 1 ==> r == ShipHit(AdvanceFleet(g, cfg), cfg)
    ensures r.shipsLeft == g.shipsLeft - 2 ==> r == ShipHit(ShipHit(AdvanceFleet(g, cfg), cfg), cfg)
  {
    var g1 := AdvanceFleet(g, cfg);
    var g2 := if ShipCollides(g1, env) then ShipHit(g1, cfg) else g1;
    FreshFleetNotAtBottom(cfg);
    if AlienAtBottom(g2.aliens, cfg.screenH) then ShipHit(g2, cfg) else g2
  }

  /** With one ship left, an alien that touches the ship while sitting at
      the bottom costs two ships in one tick: the count goes below zero. */
  lemma DoubleHitExample(env: Env)
    requires env.overlap(Rect(45, 90, 10, 10), Rect(50, 95, 10, 10))
    ensures var cfg := Config(200, 100, 100, 100, 10, 10, 5, 3, 3, Speeds(1, 0, 1), 1);
            var g := Game(Ship(Rect(45, 90, 10, 10), false, false), [Rect(50, 95, 10, 10)],
                          [], Speeds(1, 0, 1), 1, 1, true);
            cfg.Valid() && UpdateAliens(g, cfg, env).shipsLeft == -1 && !UpdateAliens(g, cfg, env).active
  {
    var cfg := Config(200, 100, 100, 100, 10, 10, 5, 3, 3, Speeds(1, 0, 1), 1);
    var alien := Rect(50, 95, 10, 10);
    var g := Game(Ship(Rect(45, 90, 10, 10), false, false), [alien], [], Speeds(1, 0, 1), 1, 1, true);
    assert !AlienMotion.AtEdge(alien, cfg.screenW);
    assert !Fleet.AnyAtEdge(g.aliens, cfg.screenW);
    var g1 := AdvanceFleet(g, cfg);
    assert g1.direction == 1 && |g1.aliens| == 1;
    assert g1.aliens[0] == alien;
    assert g1.aliens == [alien];
    assert ShipCollides(g1, env);
    var g2 := ShipHit(g1, cfg);
    assert g2.shipsLeft == 0 && g2.aliens == [alien];
    assert AlienAtBottom(g2.aliens, cfg.screenH);
    assert UpdateAliens(g, cfg, env) == ShipHit(g2, cfg);
  }


  /** One pass of the main loop's simulation: nothing moves while the game is
      inactive; otherwise the ship, the bullets and the aliens update in that
      order. */
  function Tick(g: Game, cfg: Config, env: Env): (r: Game)
    requires cfg.Valid()
    ensures !g.active ==> r == g
    ensures g.shipsLeft - 2 <= r.shipsLeft <= g.shipsLeft
    ensures |r.bullets| <= |g.bullets|
    // the fleet reverses in a tick exactly when, after the bullet update,
    // some alien is at a side edge
    ensures g.active ==>
      (r.direction == g.direction * -1 <==>
       Fleet.AnyAtEdge(UpdateBullets(g.(ship := ShipMotion.Update(g.ship, g.speeds.ship, cfg.screenW)), cfg, env).aliens, cfg.screenW))
    ensures g.active ==>
      (r.direction == g.direction <==>
       !Fleet.AnyAtEdge(UpdateBullets(g.(ship := ShipMotion.Update(g.ship, g.speeds.ship, cfg.screenW)), cfg, env).aliens, cfg.screenW))
    ensures g.active ==> forall b :: b in r.bullets ==> b.Bottom() > 0
    // with no ship lost, the ship made its move and the fleet advanced after the bullets
    ensures g.active && r.shipsLeft == g.shipsLeft ==>
      r.ship == ShipMotion.Update(g.ship, g.speeds.ship, cfg.screenW) &&
      r.aliens == AdvanceFleet(UpdateBullets(g.(ship := ShipMotion.Update(g.ship, g.speeds.ship, cfg.screenW)), cfg, env), cfg).aliens
  {
    if !g.active then g
    else
      var g1 := g.(ship := ShipMotion.Update(g.ship, g.speeds.ship, cfg.screenW));
      var g2 := UpdateBullets(g1, cfg, env);
      UpdateAliens(g2, cfg, env)
  }

  /** One frame: the pending events, then (if the process is still running)
      the simulation tick. */
  function Frame(g: Game, events: seq<Event>, cfg: Config, env: Env): (r: Outcome)
    requires cfg.Valid()
    ensures r.Exited? <==> exists i :: 0 <= i < |events| && Quits(events[i])
    // otherwise the frame is one tick of the game the events left behind
    ensures HandleEvents(g, events, cfg, env).Running? ==> r == Running(Tick(HandleEvents(g, events, cfg, env).game, cfg, env))
  {
    match HandleEvents(g, events, cfg, env)
    case Exited => Exited
    case Running(g1) => Running(Tick(g1, cfg, env))
  }

  /** What stays true of a session from frame to frame: the bullet group is
      within its cap, the ship keeps its size and stays on the bottom row,
      and every alien keeps the alien image's size. */
  ghost predicate Inv(g: Game, cfg: Config) {
    && |g.bullets| <= cfg.bulletsAllowed
    && g.ship.rect.Bottom() == cfg.screenH && g.ship.rect.w == cfg.shipW && g.ship.rect.h == cfg.shipH
    && forall a :: a in g.aliens ==> a.w == cfg.alienW && a.h == cfg.alienH
  }

  /** A new session satisfies the invariant when the cap is not negative. */
  lemma InitialInv(cfg: Config, shipsLeft: int, active: bool)
    requires cfg.Valid() && cfg.bulletsAllowed >= 0
    ensures Inv(Initial(cfg, shipsLeft, active), cfg)
  {
  }

  /** Every event handler keeps the invariant. */
  lemma HandleEventInv(g: Game, e: Event, cfg: Config, env: Env)
    requires cfg.Valid() && Inv(g, cfg)
    ensures HandleEvent(g, e, cfg, env).Running? ==> Inv(HandleEvent(g, e, cfg, env).game, cfg)
  {
  }

  /** A whole batch of events keeps the invariant. */
  lemma {:induction false} HandleEventsInv(g: Game, events: seq<Event>, cfg: Config, env: Env)
    requires cfg.Valid() && Inv(g, cfg)
    ensures HandleEvents(g, events, cfg, env).Running? ==> Inv(HandleEvents(g, events, cfg, env).game, cfg)
    decreases |events|
  {
    if |events| > 0 {
      HandleEventInv(g, events[0], cfg, env);
      match HandleEvent(g, events[0], cfg, env)
      case Exited =>
      case Running(g1) => HandleEventsInv(g1, events[1..], cfg, env);
    }
  }

  /** A hit keeps the invariant. */
  lemma ShipHitInv(g: Game, cfg: Config)
    requires cfg.Valid() && Inv(g, cfg)
    ensures Inv(ShipHit(g, cfg), cfg)
  {
  }

  /** A simulation tick keeps the invariant. */
  /** The alien phase of a tick keeps the invariant. */
  lemma UpdateAliensInv(g: Game, cfg: Config, env: Env)
    requires cfg.Valid() && Inv(g, cfg)
    ensures Inv(UpdateAliens(g, cfg, env), cfg)
  {
    var g1 := AdvanceFleet(g, cfg);
    AdvanceFleetInv(g, cfg);
    var g2 := if ShipCollides(g1, env) then ShipHit(g1, cfg) else g1;
    ShipHitInv(g1, cfg);
    ShipHitInv(g2, cfg);
  }

  lemma TickInv(g: Game, cfg: Config, env: Env)
    requires cfg.Valid() && Inv(g, cfg)
    ensures Inv(Tick(g, cfg, env), cfg)
  {
    if g.active {
      var g1 := g.(ship := ShipMotion.Update(g.ship, g.speeds.ship, cfg.screenW));
      assert Inv(g1, cfg);
      UpdateBulletsInv(g1, cfg, env);
      UpdateAliensInv(UpdateBullets(g1, cfg, env), cfg, env);
    }
  }


  /** The bullet stage keeps the invariant. */
  lemma UpdateBulletsInv(g: Game, cfg: Config, env: Env)
    requires cfg.Valid() && Inv(g, cfg)
    ensures Inv(UpdateBullets(g, cfg, env), cfg)
  {
    var f := Fleet.CreateFleet(cfg);
    assert forall a :: a in f ==> Fleet.FreshlyPlaced(cfg, a);
  }

  /** The fleet's edge check and step keep the invariant. */
  lemma AdvanceFleetInv(g: Game, cfg: Config)
    requires cfg.Valid() && Inv(g, cfg)
    ensures Inv(AdvanceFleet(g, cfg), cfg)
  {
    var g3 := AdvanceFleet(g, cfg);
    forall a | a in g3.aliens ensures a.w == cfg.alienW && a.h == cfg.alienH {
      var i :| 0 <= i < |g3.aliens| && g3.aliens[i] == a;
      assert g.aliens[i] in g.aliens;
    }
  }

  /** A whole frame keeps the invariant. */
  lemma FrameInv(g: Game, events: seq<Event>, cfg: Config, env: Env)
    requires cfg.Valid() && Inv(g, cfg)
    ensures Frame(g, events, cfg, env).Running? ==> Inv(Frame(g, events, cfg, env).game, cfg)
  {
    HandleEventsInv(g, events, cfg, env);
    match HandleEvents(g, events, cfg, env)
    case Exited =>
    case Running(g1) => TickInv(g1, cfg, env);
  }
}

=== FILE: settings.dfy ===
/** The tunable values the game reads from its settings and statistics
    objects. Their defining files are not part of this model, so every value
    is a parameter here. */
module Settings {

  /** The shared horizontal sign of the fleet's motion. */
  type Direction = d: int | d == 1 || d == -1 witness 1

  /** The dynamic speeds: reset when a game starts from the button, scaled up
      each time a fleet is wiped out. */
  datatype Speeds = Speeds(ship: int, alien: int, bullet: int)

  /** Screen and sprite sizes plus the static settings.
      `alienW`/`alienH` and `shipW`/`shipH` are the sizes of the two images. */
  datatype Config = Config(
    screenW: int, screenH: int,
    alienW: int, alienH: int,
    shipW: int, shipH: int,
    fleetDropSpeed: int,
    bulletsAllowed: int,
    shipLimit: int,
    baseSpeeds: Speeds,
    baseDirection: Direction)
  {
    /** Fleet construction divides by twice the alien's width and height;
        a zero-sized alien image would make that division fail. */
    predicate Valid() {
      alienW > 0 && alienH > 0 && shipW >= 0 && shipH >= 0
    }
  }
}

=== FILE: ship.dfy ===
/** The player's ship: placement at the bottom centre of the screen and the
    per-tick horizontal move driven by the two movement flags. */
module ShipMotion {
  import opened Geometry
  import opened Settings

  /** The ship's rect and its two movement-intent flags. With integer speeds
      the ship's separate position `x` always equals `rect.x`, so only the
      rect is kept. */
  datatype Ship = Ship(rect: Rect, movingRight: bool, movingLeft: bool)

  /** pygame's `midbottom` of a rect with non-negative width:
      horizontal centre (width halved, rounding down) and bottom edge. */
  function MidBottom(r: Rect): (int, int) {
    (r.x + r.w / 2, r.Bottom())
  }

  /** The screen's own rect, anchored at the origin. */
  function ScreenRect(cfg: Config): Rect {
    Rect(0, 0, cfg.screenW, cfg.screenH)
  }

  /** The ship image's rect moved so that its midbottom is the screen's. */
  function Centered(cfg: Config): (r: Rect)
    requires cfg.Valid()
    ensures r.w == cfg.shipW && r.h == cfg.shipH
    ensures MidBottom(r) == MidBottom(ScreenRect(cfg))
  {
    Rect(cfg.screenW / 2 - cfg.shipW / 2, cfg.screenH - cfg.shipH, cfg.shipW, cfg.shipH)
  }

  /** A new ship: centred at the bottom, not moving. */
  function NewShip(cfg: Config): (s: Ship)
    requires cfg.Valid()
    ensures MidBottom(s.rect) == MidBottom(ScreenRect(cfg))
    ensures s.rect.w == cfg.shipW && s.rect.h == cfg.shipH
    ensures !s.movingRight && !s.movingLeft
  {
    Ship(Centered(cfg), false, false)
  }

  /** Recentre the ship; the movement flags are left as they are. */
  function CenterShip(s: Ship, cfg: Config): (r: Ship)
    requires cfg.Valid()
    ensures MidBottom(r.rect) == MidBottom(ScreenRect(cfg))
    ensures r.rect == NewShip(cfg).rect
    ensures r.movingRight == s.movingRight && r.movingLeft == s.movingLeft
  {
    s.(rect := Centered(cfg))
  }

  /** Centring twice is centring once. */
  lemma CenterShipIdempotent(s: Ship, cfg: Config)
    requires cfg.Valid()
    ensures CenterShip(CenterShip(s, cfg), cfg) == CenterShip(s, cfg)
  {
  }

  /** One tick of ship motion. The two guards are evaluated independently and
      both against the rect as it was before the tick. */
  function Update(s: Ship, speed: int, screenRight: int): (r: Ship)
    ensures r.movingRight == s.movingRight && r.movingLeft == s.movingLeft
    ensures r.rect.y == s.rect.y && r.rect.w == s.rect.w && r.rect.h == s.rect.h
    // neither flag: no motion
    ensures !s.movingRight && !s.movingLeft ==> r == s
    // right flag alone: one step right unless already at the right edge
    ensures s.movingRight && !s.movingLeft ==>
      r.rect.x == if s.rect.Right() < screenRight then s.rect.x + speed else s.rect.x
    // left flag alone: one step left unless already at the left edge
    ensures !s.movingRight && s.movingLeft ==>
      r.rect.x == if s.rect.Left() > 0 then s.rect.x - speed else s.rect.x
    // both flags, strictly inside: the two steps cancel
    ensures s.movingRight && s.movingLeft && 0 < s.rect.Left() && s.rect.Right() < screenRight ==> r == s
    // both flags, one guard off: only the other step happens
    ensures s.movingRight && s.movingLeft && 0 < s.rect.Left() && s.rect.Right() >= screenRight ==>
      r.rect.x == s.rect.x - speed
    ensures s.movingRight && s.movingLeft && s.rect.Left() <= 0 && s.rect.Right() < screenRight ==>
      r.rect.x == s.rect.x + speed
    ensures s.movingRight && s.movingLeft && s.rect.Left() <= 0 && s.rect.Right() >= screenRight ==> r == s
  {
    var x := s.rect.x;
    var x := if s.movingRight && s.rect.Right() < screenRight then x + speed else x;
    var x := if s.movingLeft && s.rect.Left() > 0 then x - speed else x;
    s.(rect := s.rect.(x := x))
  }

  /** The right guard only stops a ship already at the edge: a ship strictly
      inside ends a tick less than one step past the right edge. */
  lemma NotAClamp(s: Ship, speed: int, screenRight: int)
    requires speed >= 0
    requires s.rect.Right() < screenRight
    ensures Update(s, speed, screenRight).rect.Right() < screenRight + speed
  {
  }

  /** A concrete tick that carries the ship past the right edge of a
      100-pixel-wide screen. */
  lemma OvershootExample()
    ensures var s := Ship(Rect(95, 0, 4, 1), true, false);
            s.rect.Right() < 100 && Update(s, 5, 100).rect.Right() == 104
  {
  }
}
